=== FILE: README.md ===
# font-subset, modelled in Dafny

`font-subset.js` drives the `fontmin` library: it reads a character file,
lists the font files of a source directory, asks the library to subset and
convert each of them to WOFF2 in turn, and writes a report. This project
models the deterministic logic around the library and proves what it
promises:

- **Character-set normalisation** (`readCharacterSet`). The file content is
  a `string` (a sequence of code points). `UniqueChars` is the `Set` spread,
  which keeps first occurrences in insertion order. `DropBlank` is the
  `trim() !== ""` filter. `IsWs` is the set of code points that
  `String.prototype.trim` removes. `CharacterSet` composes the two.
- **Node's path helpers** (`NodePath`). `ExtName` and `BaseName` model
  `path.extname` and `path.basename(name, suffix)` on one path segment.
  `ToLower` is the ASCII lower-case fold.
- **Font discovery** (`getFontFiles`). `FontFiles` keeps the listing
  entries whose lower-cased extension is `.ttf`, `.otf` or `.woff`.
  `GetFontFiles` turns an unreadable directory into the empty list.
- **Output naming and the per-file step** (`processFontFile`). The engine is
  a function from a file name and the character set to
  `Converted(sizes, reduction)` or `Failed(cause)`. `ProcessFontFile` builds
  the result record or the error.
- **The batch and the report** (`processAllFonts`, `generateReport`).
  `ProcessAllFonts` is a method with the source's loop. It appends the
  record of each converted file and goes on past every failure. It is
  proved equal to the specification function `Successes`. `GenerateReport`
  keeps the counts and the details.

Four points of behaviour that are easy to get wrong, as the code has them:

- Discovery keeps the directory's listing order; nothing sorts it.
- When no font file is found, the run returns before `generateReport`, so
  no report exists (`NoFontFiles`). There is no report when no file is
  discovered; a report with `processedFiles` 0 arises only when every
  discovered file fails.
- The character set is an ordered string: first occurrences, in input order.
- Output names can collide: `a.ttf` and `a.otf` are both discovered, and both
  records name the same output file `a.woff2` (`OutputNameCollision`); which
  file the engine leaves on disk is not modelled.

## Model

| member | source | states |
|---|---|---|
| `CharsetLoader.IsWs` | font-subset.js:21 | a character is blank iff `trim` strips it: the ECMAScript WhiteSpace and LineTerminator code points; ASCII space, tab, newline and carriage return are blank, and no blank character is an ASCII letter or digit or lies outside the Basic Multilingual Plane |
| `CharsetLoader.UniqueChars` | font-subset.js:20 | the spread of `new Set(s)` has no repeated character and holds exactly the characters of `s` |
| `CharsetLoader.DropBlank` | font-subset.js:21 | the filter keeps exactly the non-whitespace characters, and keeps a duplicate-free input duplicate-free |
| `CharsetLoader.CharacterSet` | font-subset.js:20-22 | the normalised set has no character twice and contains a character iff it occurs in the input and is not whitespace |
| `CharsetLoader.CharacterSetSnoc` | font-subset.js:20-22 | reading one more character leaves the set unchanged when the character was seen before or is whitespace, and appends it otherwise |
| `CharsetLoader.CharacterSetInFirstOccurrenceOrder` | font-subset.js:20-22 | every character of the set occurs in the input, and the characters appear in the order of their first occurrence there |
| `CharsetLoader.FirstOccurrenceOrderSnoc` | font-subset.js:20 | reading more input keeps an ordered set ordered: no first occurrence moves |
| `CharsetLoader.FirstOccurrenceOrderNew` | font-subset.js:20 | a character not seen before, appended to an ordered set, keeps it ordered |
| `CharsetLoader.UniqueCharsOfDistinct` | font-subset.js:20 | a string without repeated characters passes through the `Set` unchanged |
| `CharsetLoader.DropBlankOfNonBlank` | font-subset.js:21 | a string without whitespace passes the filter unchanged |
| `CharsetLoader.CharacterSetIdempotent` | font-subset.js:20-22 | normalising an already normalised set returns it unchanged |
| `NodePath.LastDot` | font-subset.js:36 | the index found holds a `.` and no `.` follows it, or the name has no `.` at all |
| `NodePath.ExtName` | font-subset.js:36 | the extension is empty iff no `.` follows the first character or the name is `..`; otherwise it is a proper suffix that starts with `.` and holds no other `.` |
| `NodePath.BaseName` | font-subset.js:49 | a name ending with the suffix loses exactly that suffix; any other name is returned unchanged |
| `NodePath.ToLower` | font-subset.js:36 | the result has the input's length and no upper-case ASCII letter; upper-case letters become their lower-case forms and every other character is kept |
| `NodePath.ToLowerIdempotent` | font-subset.js:36 | lower-casing an already lower-cased text changes nothing |
| `NodePath.ToLowerMatchesIgnoringCase` | font-subset.js:36 | lower-casing a text gives a given lower-case text iff the two are equal ignoring the case of ASCII letters |
| `FontDiscovery.IsFontFile` | font-subset.js:35-36 | a directory entry is a font file iff its extension, lower-cased, is `.ttf`, `.otf` or `.woff`; such an extension has four or five characters, starts with `.`, and is shorter than the name |
| `FontDiscovery.FontFiles` | font-subset.js:35-37 | the result holds exactly the names of the listing whose lower-cased extension is a font extension, as a subsequence of the listing |
| `FontDiscovery.GetFontFiles` | font-subset.js:32-42 | an unreadable directory yields no files; a readable one yields exactly its font entries, in listing order |
| `FontDiscovery.FontFilesAppend` | font-subset.js:35-37 | filtering a concatenated listing gives the filtered parts in the same order, so each entry is judged on its own |
| `FontDiscovery.ExtNameOfSplit` | font-subset.js:36 | for a non-empty stem followed by a dot and dot-free text, other than the name `..`, the extension is exactly that final part |
| `FontDiscovery.IsFontFileIgnoresCase` | font-subset.js:35-36 | a name is discovered iff its extension equals `.ttf`, `.otf` or `.woff` ignoring case |
| `FontDiscovery.IsFontFileOfSplit` | font-subset.js:36 | a name `stem + ext` (non-empty stem, `ext` a dot and dot-free text, other than the name `..`) is discovered iff `ext` lower-cased is a font extension, that is iff `ext` equals `.ttf`, `.otf` or `.woff` ignoring case; the stem does not matter |
| `FontDiscovery.NoExtensionIsNotFontFile` | font-subset.js:36 | a name with no `.` after its first character (no extension, or a dot file such as `.ttf`) is never discovered |
| `FontDiscovery.ReadmeIsNotFontFile` | font-subset.js:35-37 | `readme.txt` is never discovered |
| `BatchRunner.OutputName` | font-subset.js:48-49 | the output name ends with `.woff2`, and what precedes it is a prefix of the input name |
| `BatchRunner.OutputNameOfSplit` | font-subset.js:48-49 | for a non-empty stem and `ext` a dot followed by dot-free text, other than the name `..`, the output name of `stem + ext` is `stem + ".woff2"`: only the final extension goes and the stem keeps its case |
| `BatchRunner.OutputNameOfFontFile` | font-subset.js:48-49 | a discovered name has an extension, its output name is the name without that extension plus `.woff2`, its extension is `.woff2`, and it would not be discovered itself |
| `BatchRunner.OutputExtensionIsNoFontExtension` | font-subset.js:49 | any non-empty stem plus `.woff2` has the extension `.woff2` and is not a font file of the discovery |
| `BatchRunner.OutputNameCollision` | font-subset.js:48-49 | for every non-empty stem, `stem.ttf` and `stem.otf` are both discovered and both get the output name `stem.woff2` |
| `BatchRunner.ExampleFontFile` | font-subset.js:35-37 | `A.b.TTF` is discovered: the upper-case extension is lower-cased before the test |
| `BatchRunner.ExampleOutputName` | font-subset.js:48-49 | `A.b.TTF` becomes `A.b.woff2` |
| `BatchRunner.ProcessFontFile` | font-subset.js:62-81 | the file succeeds iff the engine converted it; the record names the file and its output name and carries the engine's sizes and reduction text; a failure carries the file and the engine's cause |
| `BatchRunner.Contribution` | font-subset.js:107-112 | one file adds nothing when the engine fails, and otherwise exactly its record |
| `BatchRunner.Successes` | font-subset.js:105-113 | the batch has at most one entry per input file |
| `BatchRunner.SuccessesAppend` | font-subset.js:106-113 | the results for `a + b` are those for `a` followed by those for `b`: a failure never stops later files from being processed |
| `BatchRunner.SuccessesOfLonger` | font-subset.js:106-113 | one more loop iteration appends exactly that file's contribution |
| `BatchRunner.SuccessesAllConverted` | font-subset.js:106-113 | the results have one entry per file iff no file fails |
| `BatchRunner.SuccessesRecords` | font-subset.js:105-113 | each entry is the record of a converted input file; a failed file has no entry; every converted file has its record among the results |
| `BatchRunner.SuccessesInInputOrder` | font-subset.js:105-113 | the files named by the results form a subsequence of the input files, so the input order is kept |
| `ReportGenerator.GenerateReport` | font-subset.js:127-133 | `processedFiles` is the number of entries in `details`, `details` is the results unchanged, and the character count is the one given |
| `ReportGenerator.ReportOfBatch` | font-subset.js:105-132 | for a batch, `processedFiles` is at most the number of input files, and equals it iff no file failed; the files its details name are in input order |
| `ReportGenerator.ReportOfOneFailure` | font-subset.js:105-132 | of two files where the first fails, the report counts one file and lists only the second file's record |
| `FontSubsetProcessor.ProcessAllFonts` | font-subset.js:87-117 | an unreadable character file ends the run; no discovered file means return without a report; otherwise the loop's results equal `Successes` of the discovered files, and the report is generated from them with the character set's length |

## Left out

- The `fontmin` pipeline (glyph subsetting, WOFF2 conversion, writing the output file) is an external library. It is modelled only as the outcome it yields per file (`BatchRunner.Engine`).
- File system and process effects are not modelled: reading the character file, listing the directory, `statSync`, creating the output directory, writing the report, `process.exit` and all console output. File contents, the listing and the sizes are inputs; a read failure is a `Failure` value.
- The reduction percentage and the average reduction use floating-point division and `toFixed(1)`, so they are not modelled. Each record keeps the reduction text it was given. The average, which is `NaN` when every file failed, is not part of `Report`.
- The report's timestamp, its JSON serialisation and the constructor's configuration merge are not modelled.
- The promise and `await` plumbing is not modelled: the loop runs strictly in sequence, so it is a plain loop. A throw inside the engine callback after success (`statSync`, or `files[0]` when no file was produced) escapes the promise and is not modelled.
- `generateReport` reads the character file a second time for `characterCount`; the model assumes the file has not changed in between.
- CharsetLoader.CharacterSet: lengths count code points, while the source's `uniqueChars.length` counts UTF-16 code units. Lone surrogates cannot be represented, because a Dafny `char` is a Unicode scalar value.
- NodePath.ToLower: folds only ASCII letters, where `toLowerCase` folds all of Unicode. No other character lower-cases to `.`, `t`, `f`, `o` or `w`, so the discovery filter gives the same answer either way.
- NodePath.ExtName: models one path segment, with no `/`; directory entries never contain one. `BaseName` is modelled the same way.
- The examples `AAABBCabc ` → `ABCabc` (character set) and `a.ttf`, `b.otf`, `readme.txt` → the first two (discovery) are not stated as lemmas: evaluating them on literals exceeds the verifier's resource budget. The general lemmas above cover the properties they illustrate, and `ReadmeIsNotFontFile` covers the `readme.txt` part.

=== FILE: batch.dfy ===
/** The per-file step of `processFontFile` and the specification of the
    batch that `processAllFonts` runs over the discovered files. The
    subsetting engine (glyph subsetting and WOFF2 conversion) is not modelled:
    it is a function from a font file and the character set to its outcome. */
module BatchRunner {
  import opened Results
  import opened Seqs
  import opened NodePath
  import opened FontDiscovery

  /** What the engine reports for one file: the sizes of the input and of the
      converted output with the reduction text computed from them, or the
      cause of its failure. */
  datatype EngineOutcome =
    | Converted(originalSize: nat, optimizedSize: nat, reduction: string)
    | Failed(cause: string)

  /** The engine, as the outcome it yields for each file and character set. */
  type Engine = (string, string) -> EngineOutcome

  /** One entry of `results` and of the report's `details`. */
  datatype SubsetRecord = SubsetRecord(
    originalFile: string,
    outputFile: string,
    originalSize: nat,
    optimizedSize: nat,
    reduction: string)

  /** The rejection of `processFontFile`: the file and the engine's cause. */
  datatype FileError = FileError(fontFile: string, cause: string)

  const OutputExtension: string := ".woff2"

  /** `path.basename(fontFile, path.extname(fontFile)) + ".woff2"`. */
  function OutputName(fontFile: string): (out: string)
    ensures |OutputExtension| <= |out| <= |fontFile| + |OutputExtension|
    ensures out[|out| - |OutputExtension|..] == OutputExtension
    ensures out[..|out| - |OutputExtension|] == fontFile[..|out| - |OutputExtension|]
  {
    var base := BaseName(fontFile, ExtName(fontFile));
    var out := base + OutputExtension;
    assert out[..|base|] == base && out[|base|..] == OutputExtension;
    out
  }

  /** For `stem + ext` with a proper extension, the output name is the stem,
      in its own case, followed by `.woff2`: only the last extension goes. */
  lemma OutputNameOfSplit(stem: string, ext: string)
    requires stem != [] && ext != [] && ext[0] == '.' && '.' !in ext[1..]
    requires stem + ext != ".."
    ensures OutputName(stem + ext) == stem + OutputExtension
  {
    ExtNameOfSplit(stem, ext);
    var name := stem + ext;
    assert EndsWith(name, ext);
    assert name[..|name| - |ext|] == stem;
  }

  /** The output name of a discovered file keeps everything before its
      extension, has the extension `.woff2`, and would not itself be
      discovered as a font file. */
  lemma OutputNameOfFontFile(name: string)
    requires IsFontFile(name)
    ensures ExtName(name) != []
    ensures OutputName(name) == name[..|name| - |ExtName(name)|] + OutputExtension
    ensures ExtName(OutputName(name)) == OutputExtension
    ensures !IsFontFile(OutputName(name))
  {
    var ext := ExtName(name);
    assert ToLower([]) !in FontExtensions;
    var stem := name[..|name| - |ext|];
    assert name == stem + ext;
    OutputNameOfSplit(stem, ext);
    OutputExtensionIsNoFontExtension(stem);
  }

  /** Any non-empty stem followed by `.woff2` has the extension `.woff2`,
      which is not one of the discovered formats. */
  lemma OutputExtensionIsNoFontExtension(stem: string)
    requires stem != []
    ensures ExtName(stem + OutputExtension) == OutputExtension
    ensures !IsFontFile(stem + OutputExtension)
  {
    assert '.' !in OutputExtension[1..] by {
      assert OutputExtension[1..] == "woff2";
    }
    ExtNameOfSplit(stem, OutputExtension);
    assert ToLower(OutputExtension) !in FontExtensions by {
      ToLowerOfLowerCase(OutputExtension);
    }
  }

  /** Two discovered files that differ only in their extension share one
      output name: `stem.ttf` and `stem.otf` both become `stem.woff2`, and
      both records name the same output file. */
  lemma OutputNameCollision(stem: string)
    requires stem != []
    ensures IsFontFile(stem + ".ttf") && IsFontFile(stem + ".otf")
    ensures OutputName(stem + ".ttf") == OutputName(stem + ".otf") == stem + OutputExtension
  {
    assert '.' !in ".ttf"[1..] by {
      assert ".ttf"[1..] == "ttf";
    }
    assert '.' !in ".otf"[1..] by {
      assert ".otf"[1..] == "otf";
    }
    assert ToLower(".ttf") == ".ttf" && ToLower(".otf") == ".otf" by {
      ToLowerOfLowerCase(".ttf");
      ToLowerOfLowerCase(".otf");
    }
    IsFontFileOfSplit(stem, ".ttf");
    IsFontFileOfSplit(stem, ".otf");
    OutputNameOfSplit(stem, ".ttf");
    OutputNameOfSplit(stem, ".otf");
  }

  /** `A.b.TTF` is discovered: the extension's case does not matter. */
  lemma ExampleFontFile()
    ensures IsFontFile("A.b.TTF")
  {
    assert "A.b" + ".TTF" == "A.b.TTF" by {}
    assert '.' !in ".TTF"[1..] by {
      assert ".TTF"[1..] == "TTF";
    }
    assert ToLower(".TTF") == ".ttf";
    IsFontFileOfSplit("A.b", ".TTF");
  }

  /** The output name of `A.b.TTF` is `A.b.woff2`. */
  lemma ExampleOutputName()
    ensures OutputName("A.b.TTF") == "A.b.woff2"
  {
    assert "A.b" + ".TTF" == "A.b.TTF" by {}
    assert '.' !in ".TTF"[1..] by {
      assert ".TTF"[1..] == "TTF";
    }
    OutputNameOfSplit("A.b", ".TTF");
    assert "A.b" + OutputExtension == "A.b.woff2";
  }

  /** `processFontFile(fontFile, characterSet)`: a record naming the file, its
      output name and the engine's sizes, or the engine's failure. */
  function ProcessFontFile(fontFile: string, characterSet: string, engine: Engine):
    (r: Result<SubsetRecord, FileError>)
    ensures r.Success? <==> engine(fontFile, characterSet).Converted?
    ensures r.Success? ==>
      && r.value.originalFile == fontFile
      && r.value.outputFile == OutputName(fontFile)
      && r.value.originalSize == engine(fontFile, characterSet).originalSize
      && r.value.optimizedSize == engine(fontFile, characterSet).optimizedSize
      && r.value.reduction == engine(fontFile, characterSet).reduction
    ensures r.Failure? ==> r.error == FileError(fontFile, engine(fontFile, characterSet).cause)
  {
    match engine(fontFile, characterSet)
    case Converted(originalSize, optimizedSize, reduction) =>
      Success(SubsetRecord(fontFile, OutputName(fontFile), originalSize, optimizedSize, reduction))
    case Failed(cause) => Failure(FileError(fontFile, cause))
  }

  /** What one file contributes to `results`: its record when the engine
      converted it, nothing when the engine failed. */
  function Contribution(fontFile: string, characterSet: string, engine: Engine): (c: seq<SubsetRecord>)
    ensures |c| <= 1
    ensures c == [] <==> engine(fontFile, characterSet).Failed?
    ensures c != [] ==> c == [ProcessFontFile(fontFile, characterSet, engine).value]
  {
    match ProcessFontFile(fontFile, characterSet, engine)
    case Success(record) => [record]
    case Failure(_) => []
  }

  /** The `results` of the batch: the records of the files the engine
      converted, in the order of `fontFiles`. */
  function Successes(fontFiles: seq<string>, characterSet: string, engine: Engine):
    (results: seq<SubsetRecord>)
    ensures |results| <= |fontFiles|
  {
    if fontFiles == [] then []
    else Contribution(fontFiles[0], characterSet, engine) + Successes(fontFiles[1..], characterSet, engine)
  }

  /** The batch over `a + b` is the batch over `a` followed by the batch over
      `b`: no failure in `a` stops the files of `b` from being processed. */
  lemma {:induction false} SuccessesAppend(a: seq<string>, b: seq<string>, characterSet: string, engine: Engine)
    ensures Successes(a + b, characterSet, engine) ==
            Successes(a, characterSet, engine) + Successes(b, characterSet, engine)
  {
    if a == [] {
      assert a + b == b;
    } else {
      assert (a + b)[0] == a[0];
      assert (a + b)[1..] == a[1..] + b;
      SuccessesAppend(a[1..], b, characterSet, engine);
    }
  }

  /** Processing one more file appends its contribution. */
  lemma SuccessesOfLonger(fontFiles: seq<string>, i: nat, characterSet: string, engine: Engine)
    requires i < |fontFiles|
    ensures Successes(fontFiles[..i + 1], characterSet, engine) ==
            Successes(fontFiles[..i], characterSet, engine) + Contribution(fontFiles[i], characterSet, engine)
  {
    assert fontFiles[..i + 1] == fontFiles[..i] + [fontFiles[i]];
    assert [fontFiles[i]][1..] == [];
    SuccessesAppend(fontFiles[..i], [fontFiles[i]], characterSet, engine);
  }

  /** Every file gets an entry exactly when no file fails. */
  lemma {:induction false} SuccessesAllConverted(fontFiles: seq<string>, characterSet: string, engine: Engine)
    ensures |Successes(fontFiles, characterSet, engine)| == |fontFiles| <==>
            forall f :: f in fontFiles ==> engine(f, characterSet).Converted?
  {
    if fontFiles != [] {
      SuccessesAllConverted(fontFiles[1..], characterSet, engine);
      assert forall f :: f in fontFiles <==> f == fontFiles[0] || f in fontFiles[1..];
    }
  }

  /** Each entry is the record of a file of the batch that the engine
      converted; a file that failed has no entry; a file that was converted
      has its record among the results. */
  lemma {:induction false} SuccessesRecords(fontFiles: seq<string>, characterSet: string, engine: Engine)
    ensures forall r :: r in Successes(fontFiles, characterSet, engine) ==>
              && r.originalFile in fontFiles
              && ProcessFontFile(r.originalFile, characterSet, engine) == Success(r)
    ensures forall f :: f in fontFiles && engine(f, characterSet).Failed? ==>
              forall r :: r in Successes(fontFiles, characterSet, engine) ==> r.originalFile != f
    ensures forall f :: f in fontFiles && engine(f, characterSet).Converted? ==>
              ProcessFontFile(f, characterSet, engine).value in Successes(fontFiles, characterSet, engine)
  {
    if fontFiles != [] {
      SuccessesRecords(fontFiles[1..], characterSet, engine);
      assert forall f :: f in fontFiles <==> f == fontFiles[0] || f in fontFiles[1..];
    }
  }

  /** The files named by the results, in order. */
  function OriginalFiles(results: seq<SubsetRecord>): (files: seq<string>)
    ensures |files| == |results|
    ensures forall i :: 0 <= i < |results| ==> files[i] == results[i].originalFile
  {
    if results == [] then [] else [results[0].originalFile] + OriginalFiles(results[1..])
  }

  /** The results follow the order of the input files: the files they name
      form a subsequence of `fontFiles`. */
  lemma {:induction false} SuccessesInInputOrder(fontFiles: seq<string>, characterSet: string, engine: Engine)
    ensures IsSubsequence(OriginalFiles(Successes(fontFiles, characterSet, engine)), fontFiles)
  {
    if fontFiles != [] {
      var rest := Successes(fontFiles[1..], characterSet, engine);
      var results := Successes(fontFiles, characterSet, engine);
      SuccessesInInputOrder(fontFiles[1..], characterSet, engine);
      if engine(fontFiles[0], characterSet).Converted? {
        var record := ProcessFontFile(fontFiles[0], characterSet, engine).value;
        assert results == [record] + rest;
        assert results[1..] == rest;
      } else {
        assert results == rest;
        SubsequenceOfTail(OriginalFiles(rest), fontFiles);
      }
    }
  }
}

=== FILE: charset.dfy ===
/** Character-set normalisation of `readCharacterSet`: the text of the
    character file, iterated by code point, is put through a `Set` (which
    keeps the first occurrence of each character, in insertion order), the
    whitespace characters are filtered out and the rest is joined again. */
module CharsetLoader {
  import opened Seqs

  /** A character that `String.prototype.trim` reduces to the empty string:
      the ECMAScript WhiteSpace code points (tab, vertical tab, form feed,
      no-break space, byte-order mark and every space separator) and the
      LineTerminator code points. All of them lie in the Basic Multilingual
      Plane, and no letter or digit is among them. */
  predicate IsWs(c: char): (b: bool)
    ensures c == ' ' || c == '\t' || c == '\n' || c == '\r' ==> b
    ensures b ==> c as int < 0x1_0000
    ensures b ==> !('a' <= c <= 'z' || 'A' <= c <= 'Z' || '0' <= c <= '9')
  {
    var n := c as int;
    || n == 0x09 || n == 0x0A || n == 0x0B || n == 0x0C || n == 0x0D
    || n == 0x20 || n == 0xA0 || n == 0x1680
    || 0x2000 <= n <= 0x200A
    || n == 0x2028 || n == 0x2029 || n == 0x202F || n == 0x205F
    || n == 0x3000 || n == 0xFEFF
  }

  /** `[...new Set(s)]`: each character once, at the place of its first occurrence. */
  function UniqueChars(s: string): (u: string)
    ensures NoDuplicates(u)
    ensures forall c :: c in u <==> c in s
  {
    if s == [] then []
    else
      var p, c := s[..|s| - 1], s[|s| - 1];
      assert s == p + [c];
      var u := UniqueChars(p);
      if c in u then u else u + [c]
  }

  /** `.filter(c => c.trim() !== "")`: the non-whitespace characters, in order. */
  function DropBlank(s: string): (r: string)
    ensures forall c :: c in r <==> c in s && !IsWs(c)
    ensures NoDuplicates(s) ==> NoDuplicates(r)
  {
    if s == [] then []
    else
      var p, c := s[..|s| - 1], s[|s| - 1];
      assert s == p + [c];
      var r := DropBlank(p);
      if IsWs(c) then r else r + [c]
  }

  /** The normalised character set that `readCharacterSet` returns for the
      file content `s` (joined into a string again). */
  function CharacterSet(s: string): (r: string)
    ensures NoDuplicates(r)
    ensures forall c :: c in r <==> c in s && !IsWs(c)
  {
    DropBlank(UniqueChars(s))
  }

  /** Reading one more character either leaves the set alone (the character
      was seen before, or is whitespace) or appends it. */
  lemma {:induction false} CharacterSetSnoc(p: string, c: char)
    ensures CharacterSet(p + [c]) ==
            if c in p || IsWs(c) then CharacterSet(p) else CharacterSet(p) + [c]
  {
  }

  /** Every character of `r` occurs in `s`, and the characters of `r` come in
      the order of their first occurrences in `s`. */
  predicate InFirstOccurrenceOrder(r: string, s: string) {
    && (forall c :: c in r ==> c in s)
    && forall i, j :: 0 <= i < j < |r| ==> FirstIndex(s, r[i]) < FirstIndex(s, r[j])
  }

  /** Reading more input does not move any first occurrence. */
  lemma FirstOccurrenceOrderSnoc(r: string, p: string, c: char)
    requires InFirstOccurrenceOrder(r, p)
    ensures InFirstOccurrenceOrder(r, p + [c])
  {
    forall x | x in p ensures FirstIndex(p + [c], x) == FirstIndex(p, x) {
      FirstIndexSnoc(p, c, x);
    }
  }

  /** A new character first occurs after everything read before it. */
  lemma FirstOccurrenceOrderNew(r: string, p: string, c: char)
    requires InFirstOccurrenceOrder(r, p) && c !in p
    ensures InFirstOccurrenceOrder(r + [c], p + [c])
  {
    FirstOccurrenceOrderSnoc(r, p, c);
    FirstIndexOfNew(p, c);
    var s, r' := p + [c], r + [c];
    forall i | 0 <= i < |r| ensures FirstIndex(s, r'[i]) < |p| {
      assert r'[i] == r[i] && r[i] in r;
      FirstIndexSnoc(p, c, r[i]);
    }
  }

  /** The set holds the characters of the input in the order of their first
      occurrence there. */
  lemma {:induction false} CharacterSetInFirstOccurrenceOrder(s: string)
    ensures InFirstOccurrenceOrder(CharacterSet(s), s)
  {
    if s != [] {
      var p, c := s[..|s| - 1], s[|s| - 1];
      assert s == p + [c];
      CharacterSetInFirstOccurrenceOrder(p);
      CharacterSetSnoc(p, c);
      if c !in p && !IsWs(c) {
        FirstOccurrenceOrderNew(CharacterSet(p), p, c);
      } else {
        FirstOccurrenceOrderSnoc(CharacterSet(p), p, c);
      }
    }
  }

  /** A string without repeated characters is its own `Set` spread. */
  lemma {:induction false} UniqueCharsOfDistinct(s: string)
    requires NoDuplicates(s)
    ensures UniqueChars(s) == s
  {
    if s != [] {
      var p, c := s[..|s| - 1], s[|s| - 1];
      assert s == p + [c];
      assert NoDuplicates(p);
      UniqueCharsOfDistinct(p);
    }
  }

  /** A string without whitespace passes the filter unchanged. */
  lemma {:induction false} DropBlankOfNonBlank(s: string)
    requires forall c :: c in s ==> !IsWs(c)
    ensures DropBlank(s) == s
  {
    if s != [] {
      var p, c := s[..|s| - 1], s[|s| - 1];
      assert s == p + [c];
      DropBlankOfNonBlank(p);
    }
  }

  /** Normalising a normalised character set returns it unchanged. */
  lemma CharacterSetIdempotent(s: string)
    ensures CharacterSet(CharacterSet(s)) == CharacterSet(s)
  {
    var r := CharacterSet(s);
    UniqueCharsOfDistinct(r);
    DropBlankOfNonBlank(r);
  }
}

=== FILE: discovery.dfy ===
/** Font discovery of `getFontFiles`: the entries of the source directory
    whose extension, lower-cased, is one of the recognised font formats. */
module FontDiscovery {
  import opened Results
  import opened Seqs
  import opened NodePath

  /** The recognised extensions, compared after lower-casing. */
  const FontExtensions: seq<string> := [".ttf", ".otf", ".woff"]

  /** The filter's test on one directory entry. A font file has an
      extension of four or five characters that starts with `.`, so the name
      itself is longer than its extension. */
  predicate IsFontFile(name: string): (b: bool)
    ensures b ==> 4 <= |ExtName(name)| <= 5 && ExtName(name)[0] == '.'
    ensures b ==> |ExtName(name)| < |name|
  {
    ToLower(ExtName(name)) in FontExtensions
  }

  /** `files.filter(...)`: the font entries of a listing, in listing order. */
  function FontFiles(names: seq<string>): (r: seq<string>)
    ensures forall n :: n in r <==> n in names && IsFontFile(n)
    ensures IsSubsequence(r, names)
  {
    if names == [] then []
    else
      var rest := FontFiles(names[1..]);
      if IsFontFile(names[0]) then
        assert ([names[0]] + rest)[1..] == rest;
        [names[0]] + rest
      else rest
  }

  /** `getFontFiles()` given the outcome of reading the directory: an
      unreadable directory yields no files rather than an error. */
  function GetFontFiles(listing: Result<seq<string>, string>): (r: seq<string>)
    ensures listing.Failure? ==> r == []
    ensures listing.Success? ==> forall n :: n in r <==> n in listing.value && IsFontFile(n)
    ensures listing.Success? ==> IsSubsequence(r, listing.value)
  {
    match listing
    case Success(names) => FontFiles(names)
    case Failure(_) => []
  }

  /** Filtering distributes over concatenation: each entry is judged on its
      own, and the kept ones stay in listing order. */
  lemma {:induction false} FontFilesAppend(a: seq<string>, b: seq<string>)
    ensures FontFiles(a + b) == FontFiles(a) + FontFiles(b)
  {
    if a != [] {
      assert (a + b)[0] == a[0];
      assert (a + b)[1..] == a[1..] + b;
      FontFilesAppend(a[1..], b);
      assert [a[0]] + FontFiles(a[1..]) + FontFiles(b) == [a[0]] + (FontFiles(a[1..]) + FontFiles(b));
    } else {
      assert a + b == b;
    }
  }

  /** The extension of `stem + ext` is `ext` whenever `ext` is a dot followed
      by dot-free text and the stem is not empty. */
  lemma ExtNameOfSplit(stem: string, ext: string)
    requires stem != [] && ext != [] && ext[0] == '.' && '.' !in ext[1..]
    requires stem + ext != ".."
    ensures ExtName(stem + ext) == ext
  {
    var name := stem + ext;
    var k := LastDot(name);
    assert name[|stem|] == '.';
    assert k == |stem|;
    assert name[k..] == ext;
  }

  /** A name is discovered exactly when its extension equals `.ttf`, `.otf`
      or `.woff` ignoring case (`.TTF`, `.Otf` and `.WOFF` all count). */
  lemma IsFontFileIgnoresCase(name: string)
    ensures IsFontFile(name) <==>
      || EqualsIgnoringCase(ExtName(name), ".ttf")
      || EqualsIgnoringCase(ExtName(name), ".otf")
      || EqualsIgnoringCase(ExtName(name), ".woff")
  {
    var ext := ExtName(name);
    ToLowerMatchesIgnoringCase(ext, ".ttf");
    ToLowerMatchesIgnoringCase(ext, ".otf");
    ToLowerMatchesIgnoringCase(ext, ".woff");
  }

  /** A name `stem + ext` is discovered exactly when `ext` is a font
      extension ignoring case; nothing in the stem matters. */
  lemma IsFontFileOfSplit(stem: string, ext: string)
    requires stem != [] && ext != [] && ext[0] == '.' && '.' !in ext[1..]
    requires stem + ext != ".."
    ensures IsFontFile(stem + ext) <==> ToLower(ext) in FontExtensions
    ensures IsFontFile(stem + ext) <==>
      || EqualsIgnoringCase(ext, ".ttf")
      || EqualsIgnoringCase(ext, ".otf")
      || EqualsIgnoringCase(ext, ".woff")
  {
    ExtNameOfSplit(stem, ext);
    IsFontFileIgnoresCase(stem + ext);
  }

  /** A name with no `.` after its first character (`README`, `.ttf`) has no
      extension and is never discovered. */
  lemma NoExtensionIsNotFontFile(name: string)
    requires forall k :: 1 <= k < |name| ==> name[k] != '.'
    ensures !IsFontFile(name)
  {
  }

  /** `readme.txt` is not discovered. */
  lemma ReadmeIsNotFontFile()
    ensures !IsFontFile("readme.txt")
  {
  }
}

=== FILE: node_path.dfy ===
/** The parts of Node's `path` module and of `String.prototype.toLowerCase`
    that the processor relies on, for a single path segment: every name the
    processor handles is a directory entry, which never contains a `/`. */
module NodePath {

  /** Index of the last `.` in `s`, or -1 when there is none. */
  function LastDot(s: string): (k: int)
    ensures -1 <= k < |s|
    ensures k == -1 ==> '.' !in s
    ensures k >= 0 ==> s[k] == '.' && '.' !in s[k + 1..]
  {
    if s == [] then -1
    else if s[|s| - 1] == '.' then |s| - 1
    else
      var k := LastDot(s[..|s| - 1]);
      assert s == s[..|s| - 1] + [s[|s| - 1]];
      k
  }

  /** The last `.` of `name` is at its first character or absent exactly
      when no `.` follows the first character. */
  lemma LastDotAtMostFirst(name: string)
    ensures LastDot(name) <= 0 <==> forall j :: 1 <= j < |name| ==> name[j] != '.'
  {
  }

  /** `path.extname(name)`: the suffix from the last `.`, or empty when no
      `.` follows the first character, and for the name `..`. A leading dot
      does not start an extension, so `.ttf` has none. */
  function ExtName(name: string): (ext: string)
    ensures ext == [] <==> name == ".." || forall k :: 1 <= k < |name| ==> name[k] != '.'
    ensures ext != [] ==>
      && |ext| < |name|
      && name[|name| - |ext|..] == ext
      && ext[0] == '.'
      && '.' !in ext[1..]
  {
    LastDotAtMostFirst(name);
    var k := LastDot(name);
    if k <= 0 || name == ".." then []
    else
      assert name[k..][1..] == name[k + 1..];
      name[k..]
  }

  /** `name` ends with `suffix`. */
  predicate EndsWith(name: string, suffix: string) {
    |suffix| <= |name| && name[|name| - |suffix|..] == suffix
  }

  /** `path.basename(name, suffix)`: the name with a trailing `suffix`
      removed, and the name unchanged when it does not end with `suffix`.
      (Node returns "" when the name equals the suffix, which is the same.) */
  function BaseName(name: string, suffix: string): (base: string)
    ensures EndsWith(name, suffix) ==> base + suffix == name
    ensures !EndsWith(name, suffix) ==> base == name
    ensures |base| <= |name| && name[..|base|] == base
  {
    if EndsWith(name, suffix) then
      assert name == name[..|name| - |suffix|] + name[|name| - |suffix|..];
      name[..|name| - |suffix|]
    else name
  }

  /** Lower-case ASCII fold of one character. */
  function LowerChar(c: char): char {
    if 'A' <= c <= 'Z' then (c as int - 'A' as int + 'a' as int) as char else c
  }

  /** `toLowerCase()` restricted to ASCII letters; no character outside ASCII
      lower-cases to `.`, `t`, `f`, `o` or `w`, so comparisons against the
      font extensions come out the same as with the full mapping. The result
      has no upper-case letter; each upper-case letter becomes the letter 32
      code points above it, and every other character stays as it is. */
  function ToLower(s: string): (r: string)
    ensures |r| == |s|
    ensures forall c :: c in r ==> !('A' <= c <= 'Z')
    ensures forall i :: 0 <= i < |s| && !('A' <= s[i] <= 'Z') ==> r[i] == s[i]
    ensures forall i :: 0 <= i < |s| && 'A' <= s[i] <= 'Z' ==> r[i] as int == s[i] as int + 32
  {
    seq(|s|, i requires 0 <= i < |s| => LowerChar(s[i]))
  }

  /** Text without upper-case ASCII letters is left unchanged. */
  lemma ToLowerOfLowerCase(s: string)
    requires forall c :: c in s ==> !('A' <= c <= 'Z')
    ensures ToLower(s) == s
  {
    forall i | 0 <= i < |s| ensures ToLower(s)[i] == s[i] {
      assert s[i] in s;
    }
  }

  /** Lower-casing twice is lower-casing once. */
  lemma ToLowerIdempotent(s: string)
    ensures ToLower(ToLower(s)) == ToLower(s)
  {
    ToLowerOfLowerCase(ToLower(s));
  }

  /** `x` spells `e` up to the case of its ASCII letters: position by
      position, `x` has the character of `e`, or the upper-case form of a
      lower-case letter of `e`. */
  predicate EqualsIgnoringCase(x: string, e: string) {
    && |x| == |e|
    && forall i :: 0 <= i < |x| ==>
         x[i] == e[i] || ('a' <= e[i] <= 'z' && x[i] as int == e[i] as int - 32)
  }

  /** Lower-casing `x` gives a lower-case text `e` exactly when `x` equals `e`
      ignoring case. */
  lemma ToLowerMatchesIgnoringCase(x: string, e: string)
    requires forall c :: c in e ==> !('A' <= c <= 'Z')
    ensures ToLower(x) == e <==> EqualsIgnoringCase(x, e)
  {
    if EqualsIgnoringCase(x, e) {
      forall i | 0 <= i < |x| ensures ToLower(x)[i] == e[i] {
        assert e[i] in e;
      }
    }
  }
}

=== FILE: processor.dfy ===
/** `processAllFonts`: load the character set, discover the font files, run
    the engine over each of them in turn and report. */
module FontSubsetProcessor {
  import opened Results
  import opened CharsetLoader
  import opened FontDiscovery
  import opened BatchRunner
  import opened ReportGenerator

  /** How a run ends: the character file could not be read (the process
      exits), no font file was found (nothing is reported), or the batch ran
      and was reported. */
  datatype RunOutcome =
    | CharsetUnreadable(cause: string)
    | NoFontFiles
    | Completed(results: seq<SubsetRecord>, report: Report)

  /** One run, given what reading the character file and listing the source
      directory produced, and the engine's outcome for each file. */
  method ProcessAllFonts(charFile: Result<string, string>, listing: Result<seq<string>, string>, engine: Engine)
    returns (run: RunOutcome)
    ensures charFile.Failure? ==> run == CharsetUnreadable(charFile.error)
    ensures charFile.Success? && GetFontFiles(listing) == [] ==> run == NoFontFiles
    ensures charFile.Success? && GetFontFiles(listing) != [] ==>
      var characterSet := CharacterSet(charFile.value);
      var results := Successes(GetFontFiles(listing), characterSet, engine);
      run == Completed(results, GenerateReport(results, |characterSet|))
  {
    if charFile.Failure? {
      return CharsetUnreadable(charFile.error);
    }
    var characterSet := CharacterSet(charFile.value);
    var fontFiles := GetFontFiles(listing);
    if |fontFiles| == 0 {
      return NoFontFiles;
    }
    var results: seq<SubsetRecord> := [];
    for i := 0 to |fontFiles|
      invariant results == Successes(fontFiles[..i], characterSet, engine)
    {
      var outcome := ProcessFontFile(fontFiles[i], characterSet, engine);
      match outcome {
        case Success(record) =>
          results := results + [record];
        case Failure(_) =>
          // the error is logged and the loop goes on with the next file
      }
      SuccessesOfLonger(fontFiles, i, characterSet, engine);
    }
    assert fontFiles[..|fontFiles|] == fontFiles;
    // generateReport reads the character file a second time for its count
    run := Completed(results, GenerateReport(results, |characterSet|));
  }
}

=== FILE: report.dfy ===
/** The counting part of `generateReport`: the report carries the character
    count, the number of processed files and the results themselves. */
module ReportGenerator {
  import opened Seqs
  import opened BatchRunner

  /** `subset-report.json` without its timestamp and average reduction. */
  datatype Report = Report(characterCount: nat, processedFiles: nat, details: seq<SubsetRecord>)

  /** `generateReport(results)`, given the length of the character set. */
  function GenerateReport(results: seq<SubsetRecord>, characterCount: nat): (report: Report)
    ensures report.processedFiles == |report.details|
    ensures report.details == results
    ensures report.characterCount == characterCount
  {
    Report(characterCount, |results|, results)
  }

  /** For the results of a batch, the report counts at most one file per
      input file, all of them exactly when none failed, and lists the
      records in input order. */
  lemma {:induction false} ReportOfBatch(fontFiles: seq<string>, characterSet: string, engine: Engine, characterCount: nat)
    ensures GenerateReport(Successes(fontFiles, characterSet, engine), characterCount).processedFiles <= |fontFiles|
    ensures GenerateReport(Successes(fontFiles, characterSet, engine), characterCount).processedFiles == |fontFiles|
            <==> forall f :: f in fontFiles ==> engine(f, characterSet).Converted?
    ensures IsSubsequence(OriginalFiles(GenerateReport(Successes(fontFiles, characterSet, engine), characterCount).details), fontFiles)
  {
    SuccessesAllConverted(fontFiles, characterSet, engine);
    SuccessesInInputOrder(fontFiles, characterSet, engine);
  }

  /** Of two files of which the first fails and the second converts, the
      report counts one file and lists only the second's record. */
  lemma ReportOfOneFailure(first: string, second: string, characterSet: string, engine: Engine, characterCount: nat)
    requires engine(first, characterSet).Failed? && engine(second, characterSet).Converted?
    ensures GenerateReport(Successes([first, second], characterSet, engine), characterCount).processedFiles == 1
    ensures GenerateReport(Successes([first, second], characterSet, engine), characterCount).details ==
            [ProcessFontFile(second, characterSet, engine).value]
  {
  }
}

=== FILE: seqs.dfy ===
/** The success-or-error value the model uses for operations that can fail. */
module Results {

  datatype Result<+T, +E> = Success(value: T) | Failure(error: E)
}

/** Generic facts about sequences used by the components below. */
module Seqs {

  /** No element occurs twice in `s`. */
  predicate NoDuplicates<T(==)>(s: seq<T>) {
    forall i, j :: 0 <= i < j < |s| ==> s[i] != s[j]
  }

  /** The position of the first occurrence of `x` in `s`. */
  function FirstIndex<T(==)>(s: seq<T>, x: T): (k: nat)
    requires x in s
    ensures k < |s| && s[k] == x && x !in s[..k]
  {
    if s[0] == x then 0
    else
      var k := FirstIndex(s[1..], x);
      assert s[..k + 1] == [s[0]] + s[1..][..k];
      1 + k
  }

  /** Appending an element does not move the first occurrence of anything already there. */
  lemma FirstIndexSnoc<T>(s: seq<T>, d: T, x: T)
    requires x in s
    ensures FirstIndex(s + [d], x) == FirstIndex(s, x)
  {
    var k, k' := FirstIndex(s, x), FirstIndex(s + [d], x);
    assert forall j | 0 <= j < k :: s[..k][j] == s[j];
    assert forall j | 0 <= j < k' :: (s + [d])[..k'][j] == (s + [d])[j];
    assert forall j | 0 <= j < |s| :: (s + [d])[j] == s[j];
    assert (s + [d])[k] == x;
  }

  /** An element appended to a sequence that lacks it first occurs at the end. */
  lemma FirstIndexOfNew<T>(s: seq<T>, x: T)
    requires x !in s
    ensures FirstIndex(s + [x], x) == |s|
  {
  }

  /** `xs` is `ys` with some elements deleted, the rest kept in order
      (greedy matching, which finds a match whenever one exists). */
  predicate IsSubsequence<T(==)>(xs: seq<T>, ys: seq<T>)
    decreases |ys|
  {
    if xs == [] then true
    else if ys == [] then false
    else if xs[0] == ys[0] then IsSubsequence(xs[1..], ys[1..])
    else IsSubsequence(xs, ys[1..])
  }

  /** A subsequence of the tail of `ys` is a subsequence of `ys`. */
  lemma {:induction false} SubsequenceOfTail<T>(xs: seq<T>, ys: seq<T>)
    requires ys != [] && IsSubsequence(xs, ys[1..])
    ensures IsSubsequence(xs, ys)
    decreases |xs| + |ys|
  {
    if xs != [] && xs[0] == ys[0] {
      SubsequenceDropHead(xs, ys[1..]);
    }
  }

  /** A subsequence stays one after its first element is removed. */
  lemma {:induction false} SubsequenceDropHead<T>(xs: seq<T>, ys: seq<T>)
    requires xs != [] && IsSubsequence(xs, ys)
    ensures IsSubsequence(xs[1..], ys)
    decreases |xs| + |ys|
  {
    if xs[0] == ys[0] {
      if xs[1..] != [] {
        SubsequenceOfTail(xs[1..], ys);
      }
    } else {
      SubsequenceDropHead(xs, ys[1..]);
      if xs[1..] != [] {
        SubsequenceOfTail(xs[1..], ys);
      }
    }
  }
}
